=== FILE: README.md ===
# synapse protocol layer in Dafny

This project models the protocol core of `synapse`, a topic-based
publish/subscribe layer that adds a request/response ("command") pattern on
top. It covers these parts:

- the adapter base class: connection flags, a first-wins topic→callback
  registry, and dispatch of received messages;
- the two JSON codec layers: the `{topic, message}` envelope, and the payload
  and `{payload, correlation_id}` command wrapper;
- the client connector: correlation ids, the table of commands awaiting a
  response, the `command/response` handler, state and event subscriptions,
  and `send_command`;
- the server connector: state and event publishing, command registration,
  and `process_command`;
- the in-process `Event` and `State` observer helpers.

Everything is a pure function over immutable datatypes, except `Notify` and
`SetAndNotify`, which are methods that enumerate a set. Each operation
returns what it changes, decides or calls. The calls are
publish calls (`Publication`), scheduled callback invocations (`Dispatch`),
user-callback invocations (`UserCall`) and observer invocations (`Call`).
In the codec and JSON functions a Python exception is a `Raise(e)` value
of `PyJson.Result`. An exception that ends `send_command`, the response
handler or `process_command` is the outcome variant `Raised(e)`,
`Crashed(e)` or `Escaped(e)` respectively.

## How the model reads the Python

- **Values and JSON.** `PyJson.Value` stands for Python values: `None`,
  `bool`, `int`, `str`, `list`, `dict` with string keys, and objects of
  other classes. `PyJson.Json` stands for JSON documents. `json.dumps` is
  `Dumps`, which raises `TypeError` exactly when a foreign object occurs.
  `json.loads` is `Loads`. A Python `str` given to `json.loads` is a
  `Text`: either the text of a document (`Doc`) or not JSON (`Malformed`).
  JSON text syntax is not modelled.
- **Python `in` on a loaded value.** It checks the keys of a dict, the
  elements of a list, or the substrings of a string. On other values it
  raises `TypeError`, which no handler catches (`Contains`). So a
  top-level JSON list such as `["topic", "message"]` passes the envelope
  checks. Indexing anything but a dict with a string raises `TypeError`
  (`Index`).
- **Correlation-id lookup.** The pending table has integer keys. A
  correlation id is looked up as loaded, with no integer check. `true`
  finds entry 1, a string or `null` finds nothing, and a list or dict
  raises `TypeError` because it is unhashable (`IntKeyOf`).
- **`send_command` is split at its suspension point.** `StartCommand`
  runs up to the wait. The `command/response` messages the event loop
  delivers meanwhile are `OnCommandResponse` steps. `FinishCommand` is the
  `finally` block. A timeout is the case where the slot is still `Waiting`
  when `FinishCommand` runs. `SendCommand` chains the three.
- **Behaviour kept as written.**
  - `send_command` ends in a `finally` block that deletes the entry and
    then runs `return response, True`. Its `except asyncio.TimeoutError`
    branch returns `(None, False)` (`synapse/connector_client.py:103-105`),
    so a timeout was meant to return that. The `finally` block's `return`
    replaces it, and after a timeout `response` was never bound. So a
    timed-out command raises `UnboundLocalError` (`FinishCommand`,
    `TimeoutRaises`).
  - `register_command` starts with an `if name in self.__commands` check
    (`synapse/connector_server.py:43-46`), so a duplicate name was meant to
    be rejected there. The table is never written, so the check never
    fires. Only the adapter's first-wins registry rejects a duplicate.
  - The command handler is called with the whole raw request text
    (`synapse/connector_server.py:61`), not the decoded payload.
  - `process_command` catches nothing around the handler call. An
    exception from the handler ends the task (`Escaped(HandlerError)`),
    and no response is published.
  - `process_command` checks `payload` before `correlation_id`.
    `deserialize_command` checks them in the opposite order.
  - `publish_state` and `publish_event` publish the payload text as given,
    without encoding it (see "Findings").
  - The correlation counter is initialised to 0
    (`synapse/connector_client.py:16`) and incremented before each use, so
    the first id handed out is 1.

## Model

| member | source | states |
|---|---|---|
| AdapterBase.NewAdapter | synapse/adapters/adapter.py:17-33 | a new adapter has an empty registry and is neither server nor connected |
| AdapterBase.IsConnected | synapse/adapters/adapter.py:148-154 | reports the connected flag; `ConnectionStatusReported` ties it to the last status update |
| AdapterBase.UpdateConnectionStatus | synapse/adapters/adapter.py:36-52 | both flags become exactly the given values; the registry is untouched |
| AdapterBase.ConnectionStatusReported | synapse/adapters/adapter.py:148-154 | after a status update, `is_connected` reports the connected flag set, `connect` is refused exactly when it is set, and `publish` is accepted exactly when it is set |
| AdapterBase.Connect | synapse/adapters/adapter.py:83-98 | returns false exactly when already connected; the adapter state is unchanged either way |
| AdapterBase.Create | synapse/adapters/adapter.py:100-114 | the same guard as connect; the state is unchanged |
| AdapterBase.Subscribe | synapse/adapters/adapter.py:116-132 | succeeds exactly when the topic is free; on success only that topic is added, with that callback, and every other entry is kept; on refusal the adapter is unchanged |
| AdapterBase.Publish | synapse/adapters/adapter.py:134-146 | false exactly when not connected; no state changes |
| AdapterBase.NotifySubscriber | synapse/adapters/adapter.py:54-67 | schedules exactly one invocation, of the registered callback with the message, when the topic is known; schedules nothing for an unknown topic |
| AdapterBase.FirstSubscriberWins | synapse/adapters/adapter.py:126-132 | subscribing a topic twice gives true then false, and messages on the topic still go to the first callback |
| AdapterBase.DispatchAfterSubscribe | synapse/adapters/adapter.py:63-67 | after a subscription, a topic is dispatched exactly when it is the new topic or was registered before |
| PyJson.FromJson | synapse/serializers/connector_messsage_serializer.py:8-13 | every value `json.loads` builds can be dumped again |
| PyJson.Dumps | synapse/serializers/connector_messsage_serializer.py:17-22 | `json.dumps` succeeds exactly on values without foreign objects; otherwise it raises `TypeError` |
| PyJson.Loads | synapse/serializers/connector_messsage_serializer.py:8-13 | `json.loads` raises `JSONDecodeError` exactly on text that is not JSON |
| PyJson.ToJsonFromJson | synapse/serializers/connector_messsage_serializer.py:8-22 | converting a loaded document back gives the same document |
| PyJson.FromJsonToJson | synapse/serializers/connector_messsage_serializer.py:8-22 | converting a dumpable value to a document and back gives the same value |
| PyJson.LoadsDumps | synapse/serializers/connector_messsage_serializer.py:8-22 | `json.loads(json.dumps(v)) == v` for every dumpable value |
| PyJson.Contains | synapse/serializers/adapter_message_serializer.py:42-46 | Python `in` on a loaded value: a key test on a dict, an element test on a list, and on a string a test for an occurrence of the key at some index; a `TypeError` exactly on non-containers |
| PyJson.SubstringOccurs | synapse/serializers/adapter_message_serializer.py:42-46 | the recursive substring test used for `in` on a string holds exactly when the key occurs at some index |
| PyJson.Index | synapse/serializers/connector_messsage_serializer.py:36 | indexing by a string succeeds exactly on a dict holding the key, and yields that entry; a `TypeError` on anything that is not a dict |
| PyJson.IntKeyOf | synapse/connector_client.py:35 | looking up a loaded correlation id in the integer-keyed table: an integer finds itself, `true` finds 1 and `false` finds 0, `null` and strings find nothing, a list or dict raises `TypeError`, and only integers and booleans can find an entry |
| PyJson.LoadedStringElement | synapse/serializers/adapter_message_serializer.py:42-46 | a loaded list holds a given string exactly when the JSON array held that JSON string |
| EnvelopeCodec.Deserialize | synapse/serializers/adapter_message_serializer.py:23-53 | invalid JSON gives `DeserializationError("Invalid JSON")`; on an object, a missing `topic` is reported first, then a missing `message`; success returns the loaded value unchanged, extra keys included, exactly when both keys are present; a top-level list passes exactly when both key names are among its elements, and a top-level string exactly when both occur in it as substrings; a scalar document raises `TypeError` |
| EnvelopeCodec.Serialize | synapse/serializers/adapter_message_serializer.py:56-77 | never fails on string arguments, and produces text that loads to exactly `{topic: t, message: m}` |
| EnvelopeCodec.RoundTrip | synapse/serializers/adapter_message_serializer.py:37-73 | deserialising a serialised envelope succeeds with exactly `{topic: t, message: m}` |
| PayloadCodec.DeserializePayload | synapse/serializers/connector_messsage_serializer.py:8-13 | fails with `DeserializationError("Invalid JSON string")` exactly on text that is not JSON; on JSON text it returns exactly the value `json.loads` builds |
| PayloadCodec.SerializePayload | synapse/serializers/connector_messsage_serializer.py:17-22 | fails with `SerializationError` exactly on payloads holding a foreign object; otherwise its text loads back to the payload |
| PayloadCodec.PayloadRoundTrip | synapse/serializers/connector_messsage_serializer.py:8-22 | `deserialize_payload(serialize_payload(p)) == p` for every JSON-compatible payload |
| PayloadCodec.SerializeCommand | synapse/serializers/connector_messsage_serializer.py:43-48 | succeeds exactly for a serialisable payload, with text that loads to `{payload: p, correlation_id: c}` |
| PayloadCodec.DeserializeCommand | synapse/serializers/connector_messsage_serializer.py:26-39 | succeeds exactly on an object holding both keys, returning its `payload` and unchecked `correlation_id` entries; invalid JSON gives `DeserializationError("Invalid JSON")`; a missing `correlation_id` is reported before a missing `payload`; a list or string passes the `in` checks by its elements or substrings, and one holding both key names then raises `TypeError` at the indexing; a scalar document raises `TypeError` |
| PayloadCodec.DecodeWrapper | synapse/serializers/connector_messsage_serializer.py:30-36 | any text that loads to a two-key wrapper decodes to its two entries |
| PayloadCodec.CommandRoundTrip | synapse/serializers/connector_messsage_serializer.py:26-48 | `deserialize_command(serialize_command(p, c)) == (p, c)` |
| Topics.TopicsDistinct | synapse/connector_client.py:55-94 | `state/`, `event/` and `command/` topics are injective in the name and pairwise distinct; only the command named `response` meets the reserved `command/response` |
| ConnectorClient.NewClient | synapse/connector_client.py:11-20 | counter 0, empty pending table, and `command/response` registered to the response handler unless the adapter already had that topic |
| ConnectorClient.NextCorrelationId | synapse/connector_client.py:22-24 | returns the counter plus one and stores it; in a valid client the new id is held by no pending command |
| ConnectorClient.AllocateMany | synapse/connector_client.py:22-24 | n successive allocations hand out exactly the next n integers, in increasing order |
| ConnectorClient.IdsNeverReused | synapse/connector_client.py:16-24 | from a fresh client the first id is 1 and later ids are strictly greater |
| ConnectorClient.OnCommandResponse | synapse/connector_client.py:26-39 | a decode failure, an unknown id or an escaped exception changes nothing; only a deserialization error is caught and dropped, while any other decoding exception (a `TypeError` from a list or string response) ends the task; a resolution fills exactly the waiting slot the response names with its payload; a decodable response for a waiting command always resolves it; the key set and the counter never change |
| ConnectorClient.DeliverResponses | synapse/connector_client.py:26-39 | a sequence of responses keeps the pending keys, and a slot once resolved keeps its first payload |
| ConnectorClient.PayloadCallback | synapse/connector_client.py:46-53 | the user callback is invoked once, with the decoded payload, exactly when the message is JSON |
| ConnectorClient.SubscribeToState | synapse/connector_client.py:41-55 | the wrapper is registered on `state/<name>` when the topic is free; nothing changes otherwise; the connection flags are never touched |
| ConnectorClient.SubscribeToEvent | synapse/connector_client.py:57-71 | the wrapper is registered on `event/<name>` when the topic is free; nothing changes otherwise; the connection flags are never touched |
| ConnectorClient.StartCommand | synapse/connector_client.py:79-99 | consumes one id even on failure; the request goes to `command/<name>` as exactly the text `serialize_command(payload, id)`, which decodes to `(payload, id)`; no entry is added when serialisation or publish fails; otherwise exactly one waiting entry for the fresh id is added |
| ConnectorClient.FinishCommand | synapse/connector_client.py:101-108 | the entry is always deleted; a resolved slot returns `(payload, True)`; a still-waiting (timed-out) slot raises `UnboundLocalError`; a missing entry raises `KeyError` |
| ConnectorClient.SendCommand | synapse/connector_client.py:73-108 | publishes exactly one request, the text `serialize_command(payload, id)`, when the payload is serialisable, and nothing otherwise; the pending keys after the call equal those before; an unserialisable payload or a disconnected adapter returns `(None, False)` with the table untouched; a sent command returns with success exactly when some delivered response names its correlation id, and raises `UnboundLocalError` otherwise; `(None, False)` only ever means the request was not sent, since a JSON `null` answer comes back as a present `None` |
| ConnectorClient.TimeoutRaises | synapse/connector_client.py:101-108 | a sent command that no response naming its correlation id reaches ends in `UnboundLocalError`, not `(None, False)` |
| ConnectorClient.UnansweredStaysWaiting | synapse/connector_client.py:29-39 | responses that do not name a waiting command's correlation id leave it waiting |
| ConnectorClient.AnsweredSomewhereResolves | synapse/connector_client.py:29-39 | a waiting command ends up resolved exactly when some delivered response names its correlation id, whatever its position |
| ConnectorClient.FirstAnswerResolves | synapse/connector_client.py:29-39 | the payload the command is resolved with is that of the first response naming its id; later answers cannot replace it |
| ConnectorClient.FirstAnswerCompletes | synapse/connector_client.py:73-108 | a command sent while connected returns `(payload, True)`, with the payload of the first response naming its id, whatever unrelated, undecodable or crashing responses come before or after it |
| ConnectorClient.AnsweredCommandSucceeds | synapse/connector_client.py:98-108 | when the first response delivered carries the command's id, `send_command` returns that payload with success, whatever follows |
| ConnectorClient.LateResponseDropped | synapse/connector_client.py:29-39 | a response arriving after its command finished finds no entry and is dropped |
| ConnectorServer.NewServer | synapse/connector_server.py:11-16 | the server's own command table starts empty |
| ConnectorServer.CheckIfConnected | synapse/connector_server.py:18-22 | true exactly when the adapter is connected |
| ConnectorServer.PublishState | synapse/connector_server.py:24-29 | publishes nothing when disconnected; otherwise publishes exactly the payload text, unchanged, on `state/<name>` |
| ConnectorServer.PublishEvent | synapse/connector_server.py:31-36 | the same on `event/<name>` |
| ConnectorServer.RegisterCommand | synapse/connector_server.py:38-68 | the server's table is never written; the `process_command` closure is registered on `command/<name>` exactly when the topic is free; the connection flags are never touched |
| ConnectorServer.SecondRegistrationKeepsFirst | synapse/connector_server.py:43-46 | a second registration of a name leaves the server unchanged, with the first handler still registered and the server's table still empty |
| ConnectorServer.ProcessCommand | synapse/connector_server.py:47-66 | invalid JSON escapes as `JSONDecodeError`; a missing `payload` is reported before a missing `correlation_id`; a response is published exactly for an object with both keys whose handler returns an encodable value; the response goes on `command/response`, carries the handler's result for the raw request text, and decodes to that result and the request's correlation id |
| Exchange.CommandExchange | synapse/connector_server.py:47-68 | with both adapters connected, a client request answered by the server's handler is accepted for publishing and completes the client's `send_command` with the handler's result and success |
| Exchange.AnswerResolvesOnlyItsCommand | synapse/connector_client.py:29-39 | the server's answer resolves the pending entry of its own correlation id and leaves every other pending command untouched |
| Exchange.StateBroadcast | synapse/connector_server.py:24-29 | a payload published as state reaches the client callback subscribed to that state, decoded to the same payload |
| Exchange.EventBroadcast | synapse/connector_server.py:31-36 | a payload published as an event reaches the subscribed client callback, decoded to the same payload |
| Exchange.RawStateDropped | synapse/connector_client.py:46-55 | a state published as raw text that is not JSON is dispatched to the subscribed client, and its callback drops it without calling the user |
| Exchange.RawEventDropped | synapse/connector_client.py:62-71 | the same for an event |
| Events.NewEvent | synapse/event.py:14-16 | a new event has no observers |
| Events.Subscribe | synapse/event.py:18-20 | the callback is in the set afterwards and no other observer is added or removed |
| Events.Unsubscribe | synapse/event.py:22-24 | removes exactly that callback; removing an absent callback raises `KeyError` |
| Events.SubscribeUnsubscribe | synapse/event.py:18-24 | subscribing twice equals subscribing once; unsubscribing undoes a fresh subscription; a second unsubscribe raises |
| Events.Notify | synapse/event.py:26-29 | every current observer is called exactly once with the data, in some order, and nobody else is called |
| States.NewState | synapse/state.py:7-9 | no observers; the value is the initial one, `None` by default |
| States.Get | synapse/state.py:17-18 | returns the stored value: the initial one (`NewState`), or the last one set (`Set`) |
| States.Set | synapse/state.py:11-15 | stores the value, and announces it exactly when it differs from the current value |
| States.SetAndNotify | synapse/state.py:11-15 | an equal value calls nobody; a different value calls every observer exactly once with the new value, including `None` |
| States.SubscribeState | synapse/state.py:20-23 | replays the current value to the new callback exactly when it is not `None`, then registers the callback; the value is unchanged |
| States.RepeatedSetNotifiesOnce | synapse/state.py:11-15 | setting the same value twice in a row announces at most once, and exactly once when the value was different |
| States.ReplayThenUpdates | synapse/state.py:20-23 | a subscriber to a state holding a value receives it at once and is notified of the next different value |

## Left out

- The concrete transports (`tcp_adapter.py`, `ws_adapter.py`, `ipc_adapter.py`, `local_adapter.py`) are not modelled. They do socket, WebSocket and ZeroMQ I/O. So is `close()`, which only they define. The envelope codec is modelled on its own, since only the transports call it.
- asyncio is not modelled: task scheduling, futures, `wait_for` and real time. A scheduled callback is a `Dispatch` record. A timeout is a slot still waiting when the caller resumes. The timeout value, including the default of 30, plays no part.
- Logging (`logger.py` and every log call) is not modelled, because it has no effect on state or results.
- `connector.py` is not modelled; it only holds the adapter and logger, and its `run`/`stop` raise `NotImplementedError`. `synapse/connector_client.py:5` and `synapse/serializers/connector_messsage_serializer.py:4` import a `PAYLOAD` type from it, but no file under `synapse/` defines one, so as written importing either module raises `ImportError`. The model assumes a payload type exists and takes it to be any JSON-compatible value (`PyJson.Value`). The `run` methods of the connectors are not modelled either. Each runs `asyncio.run(self._adapter.connect())` (`synapse/connector_client.py:114`, `synapse/connector_server.py:74`), so the outcome depends on the transport's `connect`, which is outside this model. The server's `run` calls `connect()`, not `create()`, so on the TCP and WebSocket transports a server started through `run` connects as a client instead of listening.
- JSON text syntax is not modelled; see "How the model reads the Python". Floats, tuples, dictionaries with non-string keys and circular structures are outside the value space.
- States.Set: compares values with Dafny equality. Python `==` can be user-defined, and it equates `1` with `True`.
- Events.Notify: observers are callback ids that always return. In Python an observer that raises ends the `for` loop (`synapse/event.py:28-29`), and the remaining observers are not called. An observer that subscribes or unsubscribes during `notify` changes the set being iterated and raises `RuntimeError`. Neither is modelled.
- States.SetAndNotify: the same assumption. If an observer raises, `set` has already stored the new value (`synapse/state.py:14-15`) and the remaining observers are not called; the model calls them all.
- States.SubscribeState: the replay callback is assumed to return. If it raises (`synapse/state.py:21-22`), the callback is never registered; the model always registers it.
- ConnectorClient.PayloadCallback: a user callback that raises, or a response handler that is cancelled, is not modelled.
- ConnectorClient.SendCommand: interleaving is limited to responses delivered between inserting the waiting slot and resuming the caller. Other tasks running in that interval are not modelled. Two asyncio windows are therefore not modelled:
  - A response handled while `await self._adapter.publish(...)` is suspended (`synapse/connector_client.py:94`) comes before the slot is inserted at line 99. It is dropped as an unknown id, and the command then times out.
  - A response that arrives after the timeout fired, but before the caller resumes, calls `set_result` on a cancelled future and crashes with `InvalidStateError`. `Slot` has no cancelled state, so the model resolves the slot and reports success here.

## Findings

| source | as written | input that shows it | evidently intended | confidence | as-written member | corrected member |
|---|---|---|---|---|---|---|
| features/steps/ws_state_steps.py:21-26 | the step publishes the raw text `World` with `publish_state`, which sends it unencoded; the client callback runs `json.loads("World")`, fails, logs and returns | `publish_state("hello", "World")` with a client subscribed to `hello`: the user callback is never called, so the expected `"World"` never arrives | the payload is encoded with `serialize_payload` before publishing, and the client then receives `"World"` | not executed | Exchange.RawStateDropped | Exchange.StateBroadcast |
| features/steps/ws_event_steps.py:21-26 | the same through `publish_event` | `publish_event("hello", "World")` with a client subscribed to `hello` | the same, for events | not executed | Exchange.RawEventDropped | Exchange.EventBroadcast |

=== FILE: adapter.dfy ===
/**
  The adapter base class: the connection flags every transport shares, a
  registry holding one callback per topic, and subscriber dispatch.

  Callbacks are identified by values of `C`, messages are values of `M`: the
  adapter never looks inside either. Dispatch does not run a callback; it
  schedules one invocation, returned as a `Dispatch` record, for the event loop
  to run later.
 */
module AdapterBase {

  datatype Adapter<C> = Adapter(subscriptions: map<string, C>, isServer: bool, connected: bool)

  /** A callback invocation scheduled on the event loop. */
  datatype Dispatch<C, M> = Dispatch(callback: C, message: M)

  /** The adapter state after a call, with the call's boolean result. */
  datatype Step<C> = Step(adapter: Adapter<C>, ok: bool)

  /** A fresh adapter: nothing subscribed, neither server nor connected. */
  function NewAdapter<C>(): (a: Adapter<C>)
    ensures a.subscriptions == map[]
    ensures !a.isServer && !IsConnected(a)
  {
    Adapter(map[], false, false)
  }

  /** `is_connected`. */
  function IsConnected<C>(a: Adapter<C>): bool {
    a.connected
  }

  /** `_update_connection_status`: the transition transports call once they
      have connected, bound or closed. */
  function UpdateConnectionStatus<C>(a: Adapter<C>, isServer: bool, isConnected: bool): (a': Adapter<C>)
    ensures a'.isServer == isServer
    ensures IsConnected(a') == isConnected
    ensures a'.subscriptions == a.subscriptions
  {
    a.(isServer := isServer, connected := isConnected)
  }

  /** `connect` in the base class: refuses when already connected; the flags are
      left for the transport to set. */
  function Connect<C>(a: Adapter<C>): (r: Step<C>)
    ensures r.ok <==> !IsConnected(a)
    ensures r.adapter == a
  {
    Step(a, !a.connected)
  }

  /** `create` in the base class: the same guard as `connect`. */
  function Create<C>(a: Adapter<C>): (r: Step<C>)
    ensures r.ok <==> !IsConnected(a)
    ensures r.adapter == a
  {
    Step(a, !a.connected)
  }

  /** `subscribe`: first registration of a topic wins; a second one is refused
      and leaves the registry as it was. */
  function Subscribe<C>(a: Adapter<C>, topic: string, callback: C): (r: Step<C>)
    ensures r.ok <==> topic !in a.subscriptions
    ensures r.ok ==> topic in r.adapter.subscriptions && r.adapter.subscriptions[topic] == callback
    ensures r.ok ==> forall t | t in a.subscriptions :: t in r.adapter.subscriptions && r.adapter.subscriptions[t] == a.subscriptions[t]
    ensures r.ok ==> r.adapter.subscriptions.Keys == a.subscriptions.Keys + {topic}
    ensures !r.ok ==> r.adapter == a
    ensures r.adapter.isServer == a.isServer && r.adapter.connected == a.connected
  {
    if topic in a.subscriptions then Step(a, false)
    else Step(a.(subscriptions := a.subscriptions[topic := callback]), true)
  }

  /** `publish` in the base class: refused exactly when not connected; delivery
      to peers belongs to the transport. */
  function Publish<C, M>(a: Adapter<C>, topic: string, message: M): (r: Step<C>)
    ensures r.ok <==> IsConnected(a)
    ensures r.adapter == a
  {
    Step(a, a.connected)
  }

  /** `_notify_subscriber`: at most one invocation, of the callback registered
      for the topic, with the message; an unknown topic is dropped. */
  function NotifySubscriber<C, M>(a: Adapter<C>, topic: string, message: M): (scheduled: seq<Dispatch<C, M>>)
    ensures |scheduled| <= 1
    ensures |scheduled| == 1 <==> topic in a.subscriptions
    ensures forall d | d in scheduled :: d.message == message && topic in a.subscriptions && d.callback == a.subscriptions[topic]
  {
    if topic in a.subscriptions then [Dispatch(a.subscriptions[topic], message)] else []
  }

  /** Setting the flags and asking for them agree: `is_connected` reports the
      last status set, whatever it was before. */
  lemma ConnectionStatusReported<C>(a: Adapter<C>, isServer: bool, isConnected: bool)
    ensures IsConnected(UpdateConnectionStatus(a, isServer, isConnected)) == isConnected
    ensures Connect(UpdateConnectionStatus(a, isServer, isConnected)).ok == !isConnected
    ensures Publish(UpdateConnectionStatus(a, isServer, isConnected), "", 0).ok == isConnected
  {
  }

  /** First wins: subscribing one topic twice succeeds and then fails, and
      messages on that topic still go to the first callback only. */
  lemma FirstSubscriberWins<C, M>(a: Adapter<C>, topic: string, first: C, second: C, message: M)
    requires topic !in a.subscriptions
    ensures Subscribe(a, topic, first).ok
    ensures !Subscribe(Subscribe(a, topic, first).adapter, topic, second).ok
    ensures NotifySubscriber(Subscribe(Subscribe(a, topic, first).adapter, topic, second).adapter, topic, message)
            == [Dispatch(first, message)]
  {
    var a1 := Subscribe(a, topic, first).adapter;
    assert a1.subscriptions[topic] == first;
  }

  /** A message is dispatched after a subscription exactly when its topic is
      the one subscribed or was registered before. */
  lemma DispatchAfterSubscribe<C, M>(a: Adapter<C>, topic: string, callback: C, other: string, message: M)
    ensures |NotifySubscriber(Subscribe(a, topic, callback).adapter, other, message)| == 1
            <==> other == topic || other in a.subscriptions
  {
  }
}

=== FILE: connector_client.dfy ===
/**
  The client connector: correlation-id allocation, the table of commands
  awaiting a response, the `command/response` handler, the state and event
  subscriptions, and the effect of `send_command` on the table.

  `send_command` suspends between publishing the request and reading the
  response. It is modelled in two halves around that suspension point:
  `StartCommand` runs up to the wait, `FinishCommand` runs the `finally` block.
  Whatever the event loop does meanwhile is a sequence of `OnCommandResponse`
  steps. A timeout is the case where the slot is still waiting when the
  caller resumes.
 */
module ConnectorClient {
  import opened PyJson
  import opened AdapterBase
  import opened PayloadCodec
  import opened Topics

  /** The future of a pending command: not yet resolved, or resolved with the
      response payload. */
  datatype Slot = Waiting | Resolved(payload: Value)

  datatype Client = Client(adapter: Adapter<Route>, counter: nat, pending: map<int, Slot>)

  /** Every pending correlation id has already been allocated. */
  predicate Valid(c: Client) {
    forall id | id in c.pending :: 1 <= id <= c.counter
  }

  /** The constructor: the counter starts at 0 and the response handler is
      subscribed on `command/response`. The adapter's verdict is ignored, so on
      an adapter where that topic is taken the handler is not installed. */
  function NewClient(adapter: Adapter<Route>): (c: Client)
    ensures c.counter == 0 && c.pending == map[] && Valid(c)
    ensures ResponseTopic in c.adapter.subscriptions
    ensures ResponseTopic !in adapter.subscriptions ==>
              c.adapter.subscriptions == adapter.subscriptions[ResponseTopic := ResponseRoute]
    ensures ResponseTopic in adapter.subscriptions ==> c.adapter == adapter
    ensures IsConnected(c.adapter) == IsConnected(adapter) && c.adapter.isServer == adapter.isServer
  {
    Client(Subscribe(adapter, ResponseTopic, ResponseRoute).adapter, 0, map[])
  }

  datatype Allocation = Allocation(client: Client, id: int)

  /** `__get_correlation_id`: increment the counter and return its new value,
      which no pending command holds. */
  function NextCorrelationId(c: Client): (r: Allocation)
    ensures r.id == c.counter + 1
    ensures r.client.counter == r.id
    ensures r.client.pending == c.pending && r.client.adapter == c.adapter
    ensures Valid(c) ==> Valid(r.client) && r.id !in c.pending
  {
    var id := c.counter + 1;
    Allocation(c.(counter := id), id)
  }

  /** The ids handed out by `n` successive allocations. */
  function AllocateMany(c: Client, n: nat): (r: (Client, seq<int>))
    ensures |r.1| == n
    ensures r.0.counter == c.counter + n
    ensures r.0.pending == c.pending && r.0.adapter == c.adapter
    ensures forall i | 0 <= i < n :: r.1[i] == c.counter + 1 + i
    decreases n
  {
    if n == 0 then (c, [])
    else
      var next := NextCorrelationId(c);
      var rest := AllocateMany(next.client, n - 1);
      (rest.0, [next.id] + rest.1)
  }

  /** Correlation ids start at 1, strictly increase, and are never reused. */
  lemma IdsNeverReused(n: nat, i: int, j: int)
    requires 0 <= i < j < n
    ensures AllocateMany(NewClient(NewAdapter()), n).1[0] == 1
    ensures AllocateMany(NewClient(NewAdapter()), n).1[i] < AllocateMany(NewClient(NewAdapter()), n).1[j]
  {
  }

  /** What the response handler did with one message. */
  datatype ResponseOutcome =
    | ResolvedId(id: int)         // the pending command's future got the payload
    | Dropped(error: Exception)   // a deserialization error, caught and logged
    | UnknownId                   // no pending command has that id; logged
    | Crashed(error: Exception)   // an exception escaped the handler's task

  datatype ResponseStep = ResponseStep(client: Client, outcome: ResponseOutcome)

  /** `__on_command_response`: decode the wrapper, look the correlation id up
      in the table of pending commands, and resolve that command's future. */
  function OnCommandResponse(c: Client, message: Text): (r: ResponseStep)
    ensures r.client.adapter == c.adapter && r.client.counter == c.counter
    ensures r.client.pending.Keys == c.pending.Keys
    ensures Valid(c) ==> Valid(r.client)
    // Only a resolution changes anything.
    ensures !r.outcome.ResolvedId? ==> r.client == c
    // A resolution fills exactly the slot the response names, which was waiting.
    ensures r.outcome.ResolvedId? ==>
              var id := r.outcome.id;
              && DeserializeCommand(message).Ok?
              && IntKeyOf(DeserializeCommand(message).value.1) == Ok(Some(id))
              && id in c.pending && c.pending[id] == Waiting
              && r.client.pending == c.pending[id := Resolved(DeserializeCommand(message).value.0)]
    // Conversely a decodable response for a waiting command resolves it.
    ensures DeserializeCommand(message).Ok? && IntKeyOf(DeserializeCommand(message).value.1).Ok? ==>
              var key := IntKeyOf(DeserializeCommand(message).value.1).value;
              (key.Some? && key.value in c.pending && c.pending[key.value] == Waiting <==> r.outcome.ResolvedId?) &&
              (key.None? || key.value !in c.pending <==> r.outcome == UnknownId)
    ensures message.Malformed? ==> r.outcome == Dropped(PayloadCodec.InvalidJson)
    // Only a deserialization error is caught; any other exception from decoding
    // (a `TypeError` from a list or string response) ends the handler's task.
    ensures DeserializeCommand(message).Raise? ==>
              var e := DeserializeCommand(message).exc;
              r.outcome == (if e.DeserializationError? then Dropped(e) else Crashed(e))
  {
    match DeserializeCommand(message)
    case Raise(e) =>
      if e.DeserializationError? then ResponseStep(c, Dropped(e)) else ResponseStep(c, Crashed(e))
    case Ok((payload, correlationId)) =>
      match IntKeyOf(correlationId)
      case Raise(e) => ResponseStep(c, Crashed(e))
      case Ok(key) =>
        if key.None? || key.value !in c.pending then ResponseStep(c, UnknownId)
        else if c.pending[key.value].Resolved? then ResponseStep(c, Crashed(InvalidStateError))
        else ResponseStep(c.(pending := c.pending[key.value := Resolved(payload)]), ResolvedId(key.value))
  }

  /** The responses the event loop hands to the handler, in order. */
  function DeliverResponses(c: Client, responses: seq<Text>): (r: Client)
    ensures r.adapter == c.adapter && r.counter == c.counter
    ensures r.pending.Keys == c.pending.Keys
    ensures Valid(c) ==> Valid(r)
    // The first response to resolve a future wins; later ones cannot change it.
    ensures forall id | id in c.pending && c.pending[id].Resolved? :: r.pending[id] == c.pending[id]
    decreases |responses|
  {
    if responses == [] then c
    else DeliverResponses(OnCommandResponse(c, responses[0]).client, responses[1..])
  }

  /** A user callback invocation. */
  datatype UserCall = UserCall(user: nat, payload: Value)

  /** The wrapper `subscribe_to_state` and `subscribe_to_event` install: the
      user callback gets the decoded payload, and text that does not decode is
      logged and dropped. */
  function PayloadCallback(user: nat, message: Text): (calls: seq<UserCall>)
    ensures |calls| <= 1
    ensures |calls| == 1 <==> message.Doc?
    ensures forall call | call in calls :: call.user == user && DeserializePayload(message) == Ok(call.payload)
  {
    match DeserializePayload(message)
    case Ok(payload) => [UserCall(user, payload)]
    case Raise(_) => []
  }

  /** `subscribe_to_state`: the wrapper goes on `state/<name>`, unless the topic
      is already taken, in which case nothing changes. */
  function SubscribeToState(c: Client, name: string, user: nat): (r: Client)
    ensures r.counter == c.counter && r.pending == c.pending
    ensures StateTopic(name) !in c.adapter.subscriptions ==>
              r.adapter.subscriptions == c.adapter.subscriptions[StateTopic(name) := StateRoute(user)]
    ensures StateTopic(name) in c.adapter.subscriptions ==> r == c
    // Subscribing never touches the connection flags.
    ensures r.adapter.connected == c.adapter.connected && r.adapter.isServer == c.adapter.isServer
  {
    c.(adapter := Subscribe(c.adapter, StateTopic(name), StateRoute(user)).adapter)
  }

  /** `subscribe_to_event`: the same on `event/<name>`. */
  function SubscribeToEvent(c: Client, name: string, user: nat): (r: Client)
    ensures r.counter == c.counter && r.pending == c.pending
    ensures EventTopic(name) !in c.adapter.subscriptions ==>
              r.adapter.subscriptions == c.adapter.subscriptions[EventTopic(name) := EventRoute(user)]
    ensures EventTopic(name) in c.adapter.subscriptions ==> r == c
    // Subscribing never touches the connection flags.
    ensures r.adapter.connected == c.adapter.connected && r.adapter.isServer == c.adapter.isServer
  {
    c.(adapter := Subscribe(c.adapter, EventTopic(name), EventRoute(user)).adapter)
  }

  /** How `send_command` ended: returned `(result, success)`, or raised. */
  datatype CommandOutcome = Completed(result: Option<Value>, success: bool) | Raised(exc: Exception)

  datatype StartOutcome = NotSent | Awaiting(id: int)

  datatype Start = Start(client: Client, outcome: StartOutcome, published: seq<Publication>)

  /** `send_command` up to the wait: allocate an id, serialise the request,
      publish it on `command/<name>`, and only if the adapter accepted it
      insert a waiting slot. `published` lists the publish calls made. */
  function StartCommand(c: Client, name: string, payload: Value): (r: Start)
    ensures r.client.counter == c.counter + 1 && r.client.adapter == c.adapter
    ensures !Serializable(payload) ==> r.published == []
    ensures Serializable(payload) ==>
              |r.published| == 1 && r.published[0].topic == CommandTopic(name) &&
              DeserializeCommand(r.published[0].message) == Ok((payload, VInt(c.counter + 1)))
    // The text published is exactly the serialised request, nothing else.
    ensures Serializable(payload) ==> r.published[0].message == SerializeCommand(payload, c.counter + 1).value
    ensures r.outcome.NotSent? <==> !Serializable(payload) || !IsConnected(c.adapter)
    ensures r.outcome.NotSent? ==> r.client.pending == c.pending
    ensures r.outcome.Awaiting? ==>
              r.outcome.id == c.counter + 1 && r.client.pending == c.pending[r.outcome.id := Waiting]
    ensures Valid(c) ==> Valid(r.client)
    ensures Valid(c) && r.outcome.Awaiting? ==> r.outcome.id !in c.pending
  {
    var alloc := NextCorrelationId(c);
    match SerializeCommand(payload, alloc.id)
    case Raise(_) => Start(alloc.client, NotSent, [])
    case Ok(request) =>
      CommandRoundTrip(payload, alloc.id);
      var call := Publication(CommandTopic(name), request);
      if !Publish(c.adapter, call.topic, call.message).ok then Start(alloc.client, NotSent, [call])
      else Start(alloc.client.(pending := alloc.client.pending[alloc.id := Waiting]), Awaiting(alloc.id), [call])
  }

  datatype Finish = Finish(client: Client, outcome: CommandOutcome)

  /** `send_command` after the wait. The `finally` block deletes the entry and
      then returns `(response, True)`; its `return` replaces the `(None, False)`
      of the timeout branch, and `response` is unbound after a timeout, so a
      timed-out command raises `UnboundLocalError`. Deleting an absent entry
      raises `KeyError`. */
  function FinishCommand(c: Client, id: int): (r: Finish)
    ensures r.client.counter == c.counter && r.client.adapter == c.adapter
    ensures Valid(c) ==> Valid(r.client)
    ensures id !in c.pending ==> r == Finish(c, Raised(KeyError))
    ensures id in c.pending ==> r.client.pending == c.pending - {id}
    ensures r.outcome.Completed? <==> id in c.pending && c.pending[id].Resolved?
    ensures r.outcome.Completed? ==> r.outcome == Completed(Some(c.pending[id].payload), true)
    ensures id in c.pending && c.pending[id] == Waiting ==> r.outcome == Raised(UnboundLocalError)
  {
    if id !in c.pending then Finish(c, Raised(KeyError))
    else
      var rest := c.(pending := c.pending - {id});
      match c.pending[id]
      case Resolved(payload) => Finish(rest, Completed(Some(payload), true))
      case Waiting => Finish(rest, Raised(UnboundLocalError))
  }

  datatype Send = Send(client: Client, outcome: CommandOutcome, published: seq<Publication>)

  /** A whole `send_command`, with `responses` the command responses the event
      loop delivers while the caller waits. */
  function SendCommand(c: Client, name: string, payload: Value, responses: seq<Text>): (r: Send)
    ensures r.client.counter == c.counter + 1 && r.client.adapter == c.adapter
    // The entry, if one was added, is always removed again.
    ensures Valid(c) ==> Valid(r.client) && r.client.pending.Keys == c.pending.Keys
    ensures Valid(c) ==> c.counter + 1 !in r.client.pending
    ensures |r.published| <= 1
    ensures forall call | call in r.published ::
              call.topic == CommandTopic(name) && DeserializeCommand(call.message) == Ok((payload, VInt(c.counter + 1)))
    ensures forall call | call in r.published :: SerializeCommand(payload, c.counter + 1) == Ok(call.message)
    ensures Serializable(payload) <==> |r.published| == 1
    // A request that could not be serialised or published returns (None, False)
    // without touching the table.
    ensures !Serializable(payload) || !IsConnected(c.adapter) ==>
              r.outcome == Completed(None, false) && r.client.pending == c.pending
    // `(None, False)` means the request was never sent: a delivered JSON `null`
    // answer is `Some(VNone)`.
    ensures r.outcome.Completed? && r.outcome.success ==> r.outcome.result.Some?
    // A sent command succeeds exactly when some delivered response answers it,
    // and otherwise raises.
    ensures Serializable(payload) && IsConnected(c.adapter) ==>
              (r.outcome.Completed? <==> exists k | 0 <= k < |responses| :: Answers(responses[k], c.counter + 1)) &&
              (r.outcome.Completed? ==> r.outcome.success) &&
              (r.outcome.Raised? ==> r.outcome.exc == UnboundLocalError)
  {
    var start := StartCommand(c, name, payload);
    match start.outcome
    case NotSent => Send(start.client, Completed(None, false), start.published)
    case Awaiting(id) =>
      AnsweredSomewhereResolves(start.client, id, responses);
      var finish := FinishCommand(DeliverResponses(start.client, responses), id);
      Send(finish.client, finish.outcome, start.published)
  }

  /** The response names the command with correlation id `id`. */
  predicate Answers(response: Text, id: int) {
    DeserializeCommand(response).Ok? && IntKeyOf(DeserializeCommand(response).value.1) == Ok(Some(id))
  }

  /** A command sent while connected that no response answers before the
      caller resumes (a timeout) does not return `(None, False)`: the
      `finally` block's `return` raises instead. */
  lemma TimeoutRaises(c: Client, name: string, payload: Value, responses: seq<Text>)
    requires Serializable(payload) && IsConnected(c.adapter)
    requires forall k | 0 <= k < |responses| :: !Answers(responses[k], c.counter + 1)
    ensures SendCommand(c, name, payload, responses).outcome == Raised(UnboundLocalError)
  {
    var start := StartCommand(c, name, payload);
    UnansweredStaysWaiting(start.client, c.counter + 1, responses);
  }

  /** Responses that do not answer a waiting command leave it waiting. */
  lemma {:induction false} UnansweredStaysWaiting(c: Client, id: int, responses: seq<Text>)
    requires id in c.pending && c.pending[id] == Waiting
    requires forall k | 0 <= k < |responses| :: !Answers(responses[k], id)
    ensures DeliverResponses(c, responses).pending[id] == Waiting
    decreases |responses|
  {
    if responses != [] {
      var step := OnCommandResponse(c, responses[0]);
      assert !Answers(responses[0], id);
      assert step.client.pending[id] == Waiting;
      UnansweredStaysWaiting(step.client, id, responses[1..]);
    }
  }

  /** A waiting command ends up resolved exactly when some delivered response
      answers it, wherever that response comes in the sequence. */
  lemma {:induction false} AnsweredSomewhereResolves(c: Client, id: int, responses: seq<Text>)
    requires id in c.pending && c.pending[id] == Waiting
    ensures DeliverResponses(c, responses).pending[id].Resolved? <==>
              exists k | 0 <= k < |responses| :: Answers(responses[k], id)
    decreases |responses|
  {
    if responses != [] {
      var step := OnCommandResponse(c, responses[0]);
      if Answers(responses[0], id) {
        assert step.client.pending[id].Resolved?;
      } else {
        assert step.client.pending[id] == Waiting;
        AnsweredSomewhereResolves(step.client, id, responses[1..]);
        if exists k | 0 <= k < |responses| :: Answers(responses[k], id) {
          var k :| 0 <= k < |responses| && Answers(responses[k], id);
          assert responses[1..][k - 1] == responses[k];
        }
        if exists k | 0 <= k < |responses[1..]| :: Answers(responses[1..][k], id) {
          var k :| 0 <= k < |responses[1..]| && Answers(responses[1..][k], id);
          assert responses[k + 1] == responses[1..][k];
        }
      }
    }
  }

  /** The payload a waiting command is resolved with is that of the first
      delivered response that answers it. */
  lemma {:induction false} FirstAnswerResolves(c: Client, id: int, responses: seq<Text>, k: nat)
    requires id in c.pending && c.pending[id] == Waiting
    requires k < |responses| && Answers(responses[k], id)
    requires forall j | 0 <= j < k :: !Answers(responses[j], id)
    ensures DeliverResponses(c, responses).pending[id] == Resolved(DeserializeCommand(responses[k]).value.0)
    decreases k
  {
    var step := OnCommandResponse(c, responses[0]);
    if k == 0 {
      assert step.client.pending[id] == Resolved(DeserializeCommand(responses[0]).value.0);
    } else {
      assert !Answers(responses[0], id);
      assert step.client.pending[id] == Waiting;
      assert responses[1..][k - 1] == responses[k];
      forall j | 0 <= j < k - 1
        ensures !Answers(responses[1..][j], id)
      {
        assert responses[1..][j] == responses[j + 1];
      }
      FirstAnswerResolves(step.client, id, responses[1..], k - 1);
    }
  }

  /** A command sent while connected returns, with success, the payload of
      the first delivered response that answers it, whatever came before or
      after that response. */
  lemma FirstAnswerCompletes(c: Client, name: string, payload: Value, responses: seq<Text>, k: nat)
    requires Serializable(payload) && IsConnected(c.adapter)
    requires k < |responses| && Answers(responses[k], c.counter + 1)
    requires forall j | 0 <= j < k :: !Answers(responses[j], c.counter + 1)
    ensures SendCommand(c, name, payload, responses).outcome
            == Completed(Some(DeserializeCommand(responses[k]).value.0), true)
  {
    var start := StartCommand(c, name, payload);
    FirstAnswerResolves(start.client, c.counter + 1, responses, k);
  }

  /** A command whose first delivered response carries its correlation id
      returns that response's payload with success, whatever arrives after. */
  lemma AnsweredCommandSucceeds(c: Client, name: string, payload: Value, response: Text, later: seq<Text>, result: Value)
    requires Serializable(payload) && IsConnected(c.adapter)
    requires DeserializeCommand(response) == Ok((result, VInt(c.counter + 1)))
    ensures SendCommand(c, name, payload, [response] + later).outcome == Completed(Some(result), true)
  {
    var start := StartCommand(c, name, payload);
    var id := c.counter + 1;
    var step := OnCommandResponse(start.client, response);
    assert step.outcome.ResolvedId?;
    assert step.client.pending[id] == Resolved(result);
    assert ([response] + later)[1..] == later;
  }

  /** A response that arrives after its command has finished finds no pending
      entry and is dropped without effect. */
  lemma LateResponseDropped(c: Client, name: string, payload: Value, responses: seq<Text>, late: Text, result: Value)
    requires Valid(c)
    requires DeserializeCommand(late) == Ok((result, VInt(c.counter + 1)))
    ensures OnCommandResponse(SendCommand(c, name, payload, responses).client, late).outcome == UnknownId
  {
  }
}

=== FILE: connector_server.dfy ===
/**
  The server connector: state and event broadcast behind a connection check,
  command registration, and the `process_command` closure that answers a
  command request on `command/response`.
 */
module ConnectorServer {
  import opened PyJson
  import opened AdapterBase
  import opened PayloadCodec
  import opened Topics

  /** `commands` is the server's own table of registered command names. No
      code path ever writes it. */
  datatype Server = Server(adapter: Adapter<Route>, commands: map<string, nat>)

  /** What a command handler did: returned a value or raised. */
  datatype Reply = Returned(value: Value) | Failed

  /** How one run of `process_command` ended. */
  datatype ProcessOutcome =
    | Responded(response: Publication, accepted: bool)  // published; `accepted` is the adapter's verdict
    | Rejected(missingKey: string)                      // a key was missing; logged
    | Escaped(exc: Exception)                           // an exception ended the task

  function NewServer(adapter: Adapter<Route>): (s: Server)
    ensures s.adapter == adapter && s.commands == map[]
  {
    Server(adapter, map[])
  }

  /** `__check_if_connected`. */
  function CheckIfConnected(s: Server): (ok: bool)
    ensures ok <==> IsConnected(s.adapter)
  {
    IsConnected(s.adapter)
  }

  /** `publish_state`: nothing is published unless connected; otherwise the
      payload text goes out on `state/<name>` as given, not encoded again. */
  function PublishState(s: Server, name: string, payload: Text): (published: seq<Publication>)
    ensures !IsConnected(s.adapter) ==> published == []
    ensures IsConnected(s.adapter) ==> published == [Publication(StateTopic(name), payload)]
  {
    if !CheckIfConnected(s) then [] else [Publication(StateTopic(name), payload)]
  }

  /** `publish_event`: the same on `event/<name>`. */
  function PublishEvent(s: Server, name: string, payload: Text): (published: seq<Publication>)
    ensures !IsConnected(s.adapter) ==> published == []
    ensures IsConnected(s.adapter) ==> published == [Publication(EventTopic(name), payload)]
  {
    if !CheckIfConnected(s) then [] else [Publication(EventTopic(name), payload)]
  }

  /** `register_command`: subscribe the command's `process_command` closure on
      `command/<name>`. The name is checked against `commands`, but it is never
      added there, so only the adapter's first-wins rule refuses a duplicate. */
  function RegisterCommand(s: Server, name: string, handler: nat): (r: Server)
    ensures r.commands == s.commands
    ensures name in s.commands || CommandTopic(name) in s.adapter.subscriptions ==> r == s
    ensures name !in s.commands && CommandTopic(name) !in s.adapter.subscriptions ==>
              r.adapter.subscriptions == s.adapter.subscriptions[CommandTopic(name) := CommandRoute(name, handler)]
    // Registering never touches the connection flags.
    ensures IsConnected(r.adapter) == IsConnected(s.adapter) && r.adapter.isServer == s.adapter.isServer
  {
    if name in s.commands then s
    else s.(adapter := Subscribe(s.adapter, CommandTopic(name), CommandRoute(name, handler)).adapter)
  }

  /** Registering the same command twice on a fresh server keeps the first
      handler, and the server's own table stays empty throughout. */
  lemma SecondRegistrationKeepsFirst(adapter: Adapter<Route>, name: string, first: nat, second: nat)
    requires CommandTopic(name) !in adapter.subscriptions
    ensures RegisterCommand(NewServer(adapter), name, first).adapter.subscriptions[CommandTopic(name)] == CommandRoute(name, first)
    ensures RegisterCommand(RegisterCommand(NewServer(adapter), name, first), name, second)
            == RegisterCommand(NewServer(adapter), name, first)
    ensures RegisterCommand(RegisterCommand(NewServer(adapter), name, first), name, second).commands == map[]
  {
  }

  /** `process_command`: load the request (a decoding error is not caught),
      require `payload` and then `correlation_id`, call the handler with the
      whole raw request text, and publish `{correlation_id, payload: result}`
      on `command/response`. The connection is not checked first. */
  function ProcessCommand(s: Server, handler: Text -> Reply, message: Text): (r: ProcessOutcome)
    ensures message.Malformed? ==> r == Escaped(JsonDecodeError)
    // On a JSON object, `payload` is checked before `correlation_id`.
    ensures message.Doc? && message.doc.JObj? && PayloadKey !in message.doc.members ==>
              r == Rejected(PayloadKey)
    ensures (message.Doc? && message.doc.JObj? && PayloadKey in message.doc.members &&
             CorrelationIdKey !in message.doc.members) ==> r == Rejected(CorrelationIdKey)
    // A response goes out exactly for an object with both keys whose handler
    // returns a value JSON can encode.
    ensures r.Responded? <==>
              && message.Doc? && message.doc.JObj?
              && PayloadKey in message.doc.members && CorrelationIdKey in message.doc.members
              && handler(message).Returned? && Serializable(handler(message).value)
    // The response carries the handler's result for the raw request and the
    // request's correlation id, and decodes as a command wrapper.
    ensures r.Responded? ==>
              && r.response.topic == ResponseTopic
              && r.accepted == IsConnected(s.adapter)
              && Loads(message).value.VDict?
              && DeserializeCommand(r.response.message)
                 == Ok((handler(message).value, Loads(message).value.entries[CorrelationIdKey]))
  {
    match Loads(message)
    case Raise(e) => Escaped(e)
    case Ok(request) =>
      match Contains(request, PayloadKey)
      case Raise(e) => Escaped(e)
      case Ok(hasPayload) =>
        if !hasPayload then Rejected(PayloadKey)
        else
          match Contains(request, CorrelationIdKey)
          case Raise(e) => Escaped(e)
          case Ok(hasId) =>
            if !hasId then Rejected(CorrelationIdKey)
            else
              match handler(message)
              case Failed => Escaped(HandlerError)
              case Returned(result) =>
                match Index(request, CorrelationIdKey)
                case Raise(e) => Escaped(e)
                case Ok(correlationId) =>
                  var answer := VDict(map[CorrelationIdKey := correlationId, PayloadKey := result]);
                  match Dumps(answer)
                  case Raise(e) => Escaped(e)
                  case Ok(text) =>
                    assert answer == Wrapper(result, correlationId);
                    LoadsDumps(answer);
                    DecodeWrapper(text, result, correlationId);
                    Responded(Publication(ResponseTopic, text), Publish(s.adapter, ResponseTopic, text).ok)
  }
}

=== FILE: envelope_codec.dfy ===
/**
  The envelope codec: the outer `{topic, message}` record that transports
  exchange. The adapter treats the message as an opaque string.
 */
module EnvelopeCodec {
  import opened PyJson

  const TopicKey := "topic"
  const MessageKey := "message"

  const InvalidJson := DeserializationError("Invalid JSON")
  const TopicMissing := DeserializationError("topic not in message")
  const MessageMissing := DeserializationError("message not in message")
  const InvalidFormat := SerializationError("Invalid message format")

  /** The dict an envelope holds once loaded. */
  function Envelope(topic: string, message: string): Value {
    VDict(map[TopicKey := VStr(topic), MessageKey := VStr(message)])
  }

  /** `deserialize`: load the text, check `topic` and then `message` with
      Python's `in`, and return the loaded value itself. */
  function Deserialize(text: Text): (r: Result<Value>)
    // Text that is not JSON is reported as a deserialization error.
    ensures text.Malformed? ==> r == Raise(InvalidJson)
    // A success returns exactly what was loaded, extra keys included.
    ensures r.Ok? ==> Loads(text) == r
    // On a JSON object, `topic` is checked before `message`.
    ensures text.Doc? && text.doc.JObj? ==>
              (TopicKey !in text.doc.members ==> r == Raise(TopicMissing)) &&
              (TopicKey in text.doc.members && MessageKey !in text.doc.members ==> r == Raise(MessageMissing)) &&
              (TopicKey in text.doc.members && MessageKey in text.doc.members <==> r.Ok?)
    // A scalar document makes `in` raise a TypeError, which is not caught.
    ensures text.Doc? && (text.doc.JNull? || text.doc.JBool? || text.doc.JInt?) ==> r == Raise(TypeError)
    // A top-level list passes when both key names occur among its elements.
    ensures text.Doc? && text.doc.JArr? ==>
              (r.Ok? <==> JStr(TopicKey) in text.doc.items && JStr(MessageKey) in text.doc.items) &&
              (JStr(TopicKey) !in text.doc.items ==> r == Raise(TopicMissing))
    // A top-level string passes when both key names occur in it as substrings.
    ensures text.Doc? && text.doc.JStr? ==>
              (r.Ok? <==> OccursIn(TopicKey, text.doc.s) && OccursIn(MessageKey, text.doc.s)) &&
              (!OccursIn(TopicKey, text.doc.s) ==> r == Raise(TopicMissing))
  {
    match Loads(text)
    case Raise(_) => Raise(InvalidJson)
    case Ok(loaded) =>
      LoadedStringElement(text.doc, TopicKey);
      LoadedStringElement(text.doc, MessageKey);
      match Contains(loaded, TopicKey)
      case Raise(e) => Raise(e)
      case Ok(hasTopic) =>
        if !hasTopic then Raise(TopicMissing)
        else
          match Contains(loaded, MessageKey)
          case Raise(e) => Raise(e)
          case Ok(hasMessage) =>
            if !hasMessage then Raise(MessageMissing) else Ok(loaded)
  }

  /** `serialize`: dump `{topic, message}`. With string arguments the
      `SerializationError` branch cannot be taken. */
  function Serialize(topic: string, message: string): (r: Result<Text>)
    ensures r.Ok?
    ensures Loads(r.value) == Ok(Envelope(topic, message))
  {
    LoadsDumps(Envelope(topic, message));
    match Dumps(Envelope(topic, message))
    case Ok(text) => Ok(text)
    case Raise(_) => Raise(InvalidFormat)
  }

  /** Round trip: an envelope that was serialised deserialises to the record
      with exactly the given topic and message. */
  lemma RoundTrip(topic: string, message: string)
    ensures Deserialize(Serialize(topic, message).value) == Ok(Envelope(topic, message))
  {
    var loaded := Envelope(topic, message);
    assert Contains(loaded, TopicKey) == Ok(true);
    assert Contains(loaded, MessageKey) == Ok(true);
  }
}

=== FILE: event.dfy ===
/**
  The in-process observer primitive: a set of callbacks, each notified once
  per `notify`, in no particular order. Callbacks are identified by values of
  `O`.
 */
module Events {
  import opened PyJson

  datatype Event<O> = Event(observers: set<O>)

  /** One callback invocation with its argument. */
  datatype Call<O, D> = Call(observer: O, data: D)

  /** A new event has no observers. */
  function NewEvent<O>(): (e: Event<O>)
    ensures e.observers == {}
  {
    Event({})
  }

  /** `subscribe`: add to the set; a callback already there is not added twice. */
  function Subscribe<O>(e: Event<O>, callback: O): (r: Event<O>)
    ensures callback in r.observers
    ensures r.observers - {callback} == e.observers - {callback}
  {
    Event(e.observers + {callback})
  }

  /** `unsubscribe`: `set.remove` raises `KeyError` on a callback that is not
      subscribed. */
  function Unsubscribe<O>(e: Event<O>, callback: O): (r: Result<Event<O>>)
    ensures r.Raise? <==> callback !in e.observers
    ensures r.Raise? ==> r.exc == KeyError
    ensures r.Ok? ==> callback !in r.value.observers
    ensures r.Ok? ==> r.value.observers - {callback} == e.observers - {callback}
  {
    if callback in e.observers then Ok(Event(e.observers - {callback})) else Raise(KeyError)
  }

  /** Subscribing is idempotent, and unsubscribing undoes a subscription of a
      callback that was not there before. */
  lemma SubscribeUnsubscribe<O>(e: Event<O>, callback: O)
    ensures Subscribe(Subscribe(e, callback), callback) == Subscribe(e, callback)
    ensures callback !in e.observers ==> Unsubscribe(Subscribe(e, callback), callback) == Ok(e)
    ensures Unsubscribe(Unsubscribe(Subscribe(e, callback), callback).value, callback) == Raise(KeyError)
  {
    assert Subscribe(e, callback).observers + {callback} == Subscribe(e, callback).observers;
    if callback !in e.observers {
      assert (e.observers + {callback}) - {callback} == e.observers;
    }
  }

  /** `notify`: iterate over the observer set and call each observer with
      `data`. Every observer is called exactly once; the order is whatever the
      set iteration yields. The event itself is not changed. */
  method Notify<O, D>(e: Event<O>, data: D) returns (calls: seq<Call<O, D>>)
    ensures forall i | 0 <= i < |calls| :: calls[i].observer in e.observers && calls[i].data == data
    ensures forall o | o in e.observers :: exists i | 0 <= i < |calls| :: calls[i].observer == o
    ensures forall i, j | 0 <= i < j < |calls| :: calls[i].observer != calls[j].observer
    ensures |calls| == |e.observers|
  {
    var remaining := e.observers;
    calls := [];
    while remaining != {}
      invariant remaining <= e.observers
      invariant forall i | 0 <= i < |calls| :: calls[i].observer in e.observers - remaining && calls[i].data == data
      invariant forall o | o in e.observers - remaining :: exists i | 0 <= i < |calls| :: calls[i].observer == o
      invariant forall i, j | 0 <= i < j < |calls| :: calls[i].observer != calls[j].observer
      invariant |calls| + |remaining| == |e.observers|
      decreases remaining
    {
      var o :| o in remaining;
      ghost var before, uncalled := calls, remaining;
      calls := calls + [Call(o, data)];
      remaining := remaining - {o};
      forall p | p in e.observers - remaining
        ensures exists i | 0 <= i < |calls| :: calls[i].observer == p
      {
        if p == o {
          assert calls[|before|].observer == p;
        } else {
          assert p in e.observers - uncalled;
          var i :| 0 <= i < |before| && before[i].observer == p;
          assert calls[i].observer == p;
        }
      }
    }
    assert e.observers - remaining == e.observers;
  }
}

=== FILE: exchange.dfy ===
/**
  Properties that span the client and the server connectors: a command request
  travels to the server's `process_command` and its answer back to the
  waiting `send_command`; a state published by the server reaches a client
  subscriber decoded.
 */
module Exchange {
  import opened PyJson
  import opened AdapterBase
  import opened PayloadCodec
  import opened Topics
  import opened ConnectorClient
  import opened ConnectorServer

  /** End to end, with both adapters connected: the request the client
      publishes is answered by the server's handler, the server's adapter
      accepts the answer, and the answer, delivered first, completes the client's
      `send_command` with the handler's result, whatever arrives after it. */
  lemma CommandExchange(c: Client, s: Server, name: string, payload: Value, handler: Text -> Reply, later: seq<Text>)
    requires Serializable(payload) && IsConnected(c.adapter) && IsConnected(s.adapter)
    requires handler(StartCommand(c, name, payload).published[0].message).Returned?
    requires Serializable(handler(StartCommand(c, name, payload).published[0].message).value)
    ensures var request := StartCommand(c, name, payload).published[0];
            var answer := ProcessCommand(s, handler, request.message);
            && request.topic == CommandTopic(name)
            && answer.Responded? && answer.accepted && answer.response.topic == ResponseTopic
            && SendCommand(c, name, payload, [answer.response.message] + later).outcome
               == Completed(Some(handler(request.message).value), true)
  {
    var request := StartCommand(c, name, payload).published[0];
    var id := c.counter + 1;
    CommandRoundTrip(payload, id);
    var answer := ProcessCommand(s, handler, request.message);
    assert Loads(request.message) == Ok(Wrapper(payload, VInt(id)));
    assert answer.Responded?;
    AnsweredCommandSucceeds(c, name, payload, answer.response.message, later, handler(request.message).value);
  }

  /** The server answers with the request's correlation id, so the answer
      resolves the client's pending command and no other. */
  lemma AnswerResolvesOnlyItsCommand(c: Client, s: Server, name: string, payload: Value, handler: Text -> Reply)
    requires Serializable(payload) && IsConnected(c.adapter)
    requires handler(StartCommand(c, name, payload).published[0].message).Returned?
    requires Serializable(handler(StartCommand(c, name, payload).published[0].message).value)
    ensures var start := StartCommand(c, name, payload);
            var answer := ProcessCommand(s, handler, start.published[0].message);
            var step := OnCommandResponse(start.client, answer.response.message);
            && step.outcome == ResolvedId(c.counter + 1)
            && forall id | id in start.client.pending && id != c.counter + 1 :: step.client.pending[id] == start.client.pending[id]
  {
    var start := StartCommand(c, name, payload);
    CommandRoundTrip(payload, c.counter + 1);
    assert Loads(start.published[0].message) == Ok(Wrapper(payload, VInt(c.counter + 1)));
  }

  /** A state the server publishes as the text of a payload reaches the client
      callback subscribed to it, decoded back to that payload. */
  lemma StateBroadcast(s: Server, c: Client, name: string, user: nat, value: Value)
    requires IsConnected(s.adapter) && Serializable(value)
    requires StateTopic(name) !in c.adapter.subscriptions
    ensures var published := PublishState(s, name, SerializePayload(value).value);
            var subscriber := SubscribeToState(c, name, user);
            && |published| == 1
            && NotifySubscriber(subscriber.adapter, published[0].topic, published[0].message)
               == [Dispatch(StateRoute(user), published[0].message)]
            && PayloadCallback(user, published[0].message) == [UserCall(user, value)]
  {
    PayloadRoundTrip(value);
  }

  /** The same for events. */
  lemma EventBroadcast(s: Server, c: Client, name: string, user: nat, value: Value)
    requires IsConnected(s.adapter) && Serializable(value)
    requires EventTopic(name) !in c.adapter.subscriptions
    ensures var published := PublishEvent(s, name, SerializePayload(value).value);
            var subscriber := SubscribeToEvent(c, name, user);
            && |published| == 1
            && NotifySubscriber(subscriber.adapter, published[0].topic, published[0].message)
               == [Dispatch(EventRoute(user), published[0].message)]
            && PayloadCallback(user, published[0].message) == [UserCall(user, value)]
  {
    PayloadRoundTrip(value);
  }

  /** A state published as raw text that is not JSON (such as `World`) is
      dispatched to the subscribed client, whose callback drops it: the user
      callback is never called. */
  lemma RawStateDropped(s: Server, c: Client, name: string, user: nat, raw: string)
    requires IsConnected(s.adapter)
    requires StateTopic(name) !in c.adapter.subscriptions
    ensures var published := PublishState(s, name, Malformed(raw));
            var subscriber := SubscribeToState(c, name, user);
            && published == [Publication(StateTopic(name), Malformed(raw))]
            && NotifySubscriber(subscriber.adapter, published[0].topic, published[0].message)
               == [Dispatch(StateRoute(user), Malformed(raw))]
            && PayloadCallback(user, published[0].message) == []
  {
  }

  /** The same for events. */
  lemma RawEventDropped(s: Server, c: Client, name: string, user: nat, raw: string)
    requires IsConnected(s.adapter)
    requires EventTopic(name) !in c.adapter.subscriptions
    ensures var published := PublishEvent(s, name, Malformed(raw));
            var subscriber := SubscribeToEvent(c, name, user);
            && published == [Publication(EventTopic(name), Malformed(raw))]
            && NotifySubscriber(subscriber.adapter, published[0].topic, published[0].message)
               == [Dispatch(EventRoute(user), Malformed(raw))]
            && PayloadCallback(user, published[0].message) == []
  {
  }
}

=== FILE: payload_codec.dfy ===
/**
  The payload codec of the connector layer: a bare payload for state and event
  topics, and the command wrapper `{payload, correlation_id}` for command
  requests and responses.
 */
module PayloadCodec {
  import opened PyJson

  const PayloadKey := "payload"
  const CorrelationIdKey := "correlation_id"

  const InvalidJsonString := DeserializationError("Invalid JSON string")
  const InvalidPayloadFormat := SerializationError("Invalid payload format")
  const InvalidJson := DeserializationError("Invalid JSON")
  const CorrelationIdMissing := DeserializationError("correlation_id not in message")
  const PayloadMissing := DeserializationError("payload not in message")
  const InvalidMessageFormat := SerializationError("Invalid message format")

  /** The dict a command wrapper holds. */
  function Wrapper(payload: Value, correlationId: Value): Value {
    VDict(map[PayloadKey := payload, CorrelationIdKey := correlationId])
  }

  /** `deserialize_payload`: any JSON value is a payload. */
  function DeserializePayload(message: Text): (r: Result<Value>)
    ensures r.Raise? <==> message.Malformed?
    ensures r.Raise? ==> r.exc == InvalidJsonString
    ensures r.Ok? ==> Serializable(r.value)
    // A JSON text yields exactly the value `json.loads` builds from it.
    ensures message.Doc? ==> r == Loads(message)
  {
    match Loads(message)
    case Ok(v) => Ok(v)
    case Raise(_) => Raise(InvalidJsonString)
  }

  /** `serialize_payload`: fails exactly on payloads that hold a foreign object. */
  function SerializePayload(payload: Value): (r: Result<Text>)
    ensures r.Ok? <==> Serializable(payload)
    ensures r.Raise? ==> r.exc == InvalidPayloadFormat
    // The text loads back to the payload.
    ensures r.Ok? ==> Loads(r.value) == Ok(payload)
  {
    match Dumps(payload)
    case Ok(text) => LoadsDumps(payload); Ok(text)
    case Raise(_) => Raise(InvalidPayloadFormat)
  }

  /** Round trip of a bare payload. */
  lemma PayloadRoundTrip(payload: Value)
    requires Serializable(payload)
    ensures SerializePayload(payload).Ok?
    ensures DeserializePayload(SerializePayload(payload).value) == Ok(payload)
  {
    LoadsDumps(payload);
  }

  /** `serialize_command`: the text of `{payload, correlation_id}`. */
  function SerializeCommand(payload: Value, correlationId: int): (r: Result<Text>)
    ensures r.Ok? <==> Serializable(payload)
    ensures r.Raise? ==> r.exc == InvalidMessageFormat
    ensures r.Ok? ==> Loads(r.value) == Ok(Wrapper(payload, VInt(correlationId)))
  {
    var wrapper := Wrapper(payload, VInt(correlationId));
    assert Serializable(wrapper) <==> Serializable(payload) by {
      assert wrapper.entries[PayloadKey] == payload;
    }
    if Serializable(wrapper) then LoadsDumps(wrapper); Ok(Dumps(wrapper).value)
    else Raise(InvalidMessageFormat)
  }

  /** `deserialize_command`: load the text, check `correlation_id` and then
      `payload` with Python's `in`, and return both entries. The correlation id
      is returned as loaded, without any check that it is an integer. */
  function DeserializeCommand(message: Text): (r: Result<(Value, Value)>)
    ensures message.Malformed? ==> r == Raise(InvalidJson)
    // Only a JSON object holding both keys decodes, to its two entries.
    ensures r.Ok? <==> message.Doc? && message.doc.JObj? &&
                       CorrelationIdKey in message.doc.members && PayloadKey in message.doc.members
    ensures r.Ok? ==> Loads(message).value.VDict? &&
                      r.value.0 == Loads(message).value.entries[PayloadKey] &&
                      r.value.1 == Loads(message).value.entries[CorrelationIdKey]
    // On a JSON object, `correlation_id` is checked before `payload`.
    ensures message.Doc? && message.doc.JObj? && CorrelationIdKey !in message.doc.members ==>
              r == Raise(CorrelationIdMissing)
    ensures (message.Doc? && message.doc.JObj? && CorrelationIdKey in message.doc.members &&
             PayloadKey !in message.doc.members) ==> r == Raise(PayloadMissing)
    // A list passes the `in` checks by its string elements, and one holding
    // both key names then raises `TypeError` when indexed by a string.
    ensures message.Doc? && message.doc.JArr? ==>
              (JStr(CorrelationIdKey) !in message.doc.items ==> r == Raise(CorrelationIdMissing)) &&
              (JStr(CorrelationIdKey) in message.doc.items && JStr(PayloadKey) !in message.doc.items ==>
                 r == Raise(PayloadMissing)) &&
              (JStr(CorrelationIdKey) in message.doc.items && JStr(PayloadKey) in message.doc.items ==>
                 r == Raise(TypeError))
    // The same for a string, by substring occurrence.
    ensures message.Doc? && message.doc.JStr? ==>
              (!OccursIn(CorrelationIdKey, message.doc.s) ==> r == Raise(CorrelationIdMissing)) &&
              (OccursIn(CorrelationIdKey, message.doc.s) && !OccursIn(PayloadKey, message.doc.s) ==>
                 r == Raise(PayloadMissing)) &&
              (OccursIn(CorrelationIdKey, message.doc.s) && OccursIn(PayloadKey, message.doc.s) ==>
                 r == Raise(TypeError))
    // A scalar document makes `in` raise a `TypeError`.
    ensures message.Doc? && (message.doc.JNull? || message.doc.JBool? || message.doc.JInt?) ==>
              r == Raise(TypeError)
  {
    match Loads(message)
    case Raise(_) => Raise(InvalidJson)
    case Ok(loaded) =>
      LoadedStringElement(message.doc, CorrelationIdKey);
      LoadedStringElement(message.doc, PayloadKey);
      match Contains(loaded, CorrelationIdKey)
      case Raise(e) => Raise(e)
      case Ok(hasId) =>
        if !hasId then Raise(CorrelationIdMissing)
        else
          match Contains(loaded, PayloadKey)
          case Raise(e) => Raise(e)
          case Ok(hasPayload) =>
            if !hasPayload then Raise(PayloadMissing)
            else
              match Index(loaded, PayloadKey)
              case Raise(e) => Raise(e)
              case Ok(payload) =>
                match Index(loaded, CorrelationIdKey)
                case Raise(e) => Raise(e)
                case Ok(correlationId) => Ok((payload, correlationId))
  }

  /** A loaded dict that holds both keys decodes to its two entries. */
  lemma DecodeWrapper(message: Text, payload: Value, correlationId: Value)
    requires Loads(message) == Ok(Wrapper(payload, correlationId))
    ensures DeserializeCommand(message) == Ok((payload, correlationId))
  {
    var loaded := Wrapper(payload, correlationId);
    assert Contains(loaded, CorrelationIdKey) == Ok(true);
    assert Contains(loaded, PayloadKey) == Ok(true);
  }

  /** Round trip of the command wrapper. */
  lemma CommandRoundTrip(payload: Value, correlationId: int)
    requires Serializable(payload)
    ensures SerializeCommand(payload, correlationId).Ok?
    ensures DeserializeCommand(SerializeCommand(payload, correlationId).value) == Ok((payload, VInt(correlationId)))
  {
    DecodeWrapper(SerializeCommand(payload, correlationId).value, payload, VInt(correlationId));
  }
}

=== FILE: pyjson.dfy ===
/**
  Python values as they flow through the messaging layer, the JSON documents
  that `json.dumps` and `json.loads` translate them to and from, and the Python
  exceptions the layer raises or lets escape.

  The JSON library is a foreign component. Its text format is not modelled:
  a Python `str` handed to `json.loads` is a `Text`, which is either the text of
  a JSON document (identified with the document it parses to) or text that is
  not valid JSON. Floats, tuples and dictionaries with non-string keys are not
  part of the value space.
 */
module PyJson {

  datatype Option<+T> = None | Some(value: T)

  /** A Python exception raised by the modelled code or escaping from it. */
  datatype Exception =
    | DeserializationError(reason: string)
    | SerializationError(reason: string)
    | JsonDecodeError
    | TypeError
    | KeyError
    | InvalidStateError
    | UnboundLocalError
    | HandlerError

  /** The outcome of a Python call: a returned value or a raised exception. */
  datatype Result<+T> = Ok(value: T) | Raise(exc: Exception)

  /** A Python value: `None`, `bool`, `int`, `str`, `list`, `dict` with string
      keys, or an instance of some other class (which JSON cannot encode). */
  datatype Value =
    | VNone
    | VBool(b: bool)
    | VInt(i: int)
    | VStr(s: string)
    | VList(items: seq<Value>)
    | VDict(entries: map<string, Value>)
    | VObject(id: nat)

  /** A JSON document. */
  datatype Json =
    | JNull
    | JBool(b: bool)
    | JInt(i: int)
    | JStr(s: string)
    | JArr(items: seq<Json>)
    | JObj(members: map<string, Json>)

  /** A Python `str` as `json.loads` sees it. */
  datatype Text = Doc(doc: Json) | Malformed(raw: string)

  /** `json.dumps` succeeds on `v`: no object of a foreign class occurs in it. */
  predicate Serializable(v: Value) {
    match v
    case VObject(_) => false
    case VList(xs) => forall i | 0 <= i < |xs| :: Serializable(xs[i])
    case VDict(m) => forall k | k in m :: Serializable(m[k])
    case _ => true
  }

  /** The document `json.dumps` writes for a serialisable value. */
  function ToJson(v: Value): Json
    requires Serializable(v)
  {
    match v
    case VNone => JNull
    case VBool(b) => JBool(b)
    case VInt(i) => JInt(i)
    case VStr(s) => JStr(s)
    case VList(xs) => JArr(seq(|xs|, i requires 0 <= i < |xs| => ToJson(xs[i])))
    case VDict(m) => JObj(map k | k in m :: ToJson(m[k]))
  }

  /** The Python value `json.loads` builds from a document; it can always be
      dumped again. */
  function FromJson(j: Json): (v: Value)
    ensures Serializable(v)
  {
    match j
    case JNull => VNone
    case JBool(b) => VBool(b)
    case JInt(i) => VInt(i)
    case JStr(s) => VStr(s)
    case JArr(xs) => VList(seq(|xs|, i requires 0 <= i < |xs| => FromJson(xs[i])))
    case JObj(m) => VDict(map k | k in m :: FromJson(m[k]))
  }

  /** A loaded list holds the string `key` exactly when the JSON array held
      the JSON string `key`. */
  lemma LoadedStringElement(j: Json, key: string)
    ensures j.JArr? ==> (VStr(key) in FromJson(j).items <==> JStr(key) in j.items)
  {
    if j.JArr? {
      var ys := FromJson(j).items;
      if VStr(key) in ys {
        var i :| 0 <= i < |ys| && ys[i] == VStr(key);
        assert FromJson(j.items[i]) == VStr(key);
        assert j.items[i] == JStr(key);
      }
      if JStr(key) in j.items {
        var i :| 0 <= i < |j.items| && j.items[i] == JStr(key);
        assert ys[i] == VStr(key);
      }
    }
  }

  /** `json.dumps(v)`: a `TypeError` exactly when `v` holds a foreign object. */
  function Dumps(v: Value): (r: Result<Text>)
    ensures r.Ok? <==> Serializable(v)
    ensures r.Raise? ==> r.exc == TypeError
    ensures r.Ok? ==> r.value.Doc?
  {
    if Serializable(v) then Ok(Doc(ToJson(v))) else Raise(TypeError)
  }

  /** `json.loads(t)`: a `JSONDecodeError` exactly when `t` is not JSON. */
  function Loads(t: Text): (r: Result<Value>)
    ensures r.Raise? <==> t.Malformed?
    ensures r.Raise? ==> r.exc == JsonDecodeError
    ensures r.Ok? ==> Serializable(r.value)
  {
    match t
    case Doc(j) => Ok(FromJson(j))
    case Malformed(_) => Raise(JsonDecodeError)
  }

  /** Loading a document and converting back gives the document. */
  lemma {:induction false} ToJsonFromJson(j: Json)
    ensures ToJson(FromJson(j)) == j
  {
    match j
    case JArr(xs) =>
      var ys := ToJson(FromJson(j)).items;
      assert |ys| == |xs|;
      forall i | 0 <= i < |xs|
        ensures ys[i] == xs[i]
      {
        ToJsonFromJson(xs[i]);
      }
    case JObj(m) =>
      var n := ToJson(FromJson(j)).members;
      assert n.Keys == m.Keys;
      forall k | k in m
        ensures n[k] == m[k]
      {
        ToJsonFromJson(m[k]);
      }
    case _ =>
  }

  /** Dumping a serialisable value and loading the text gives the value back. */
  lemma {:induction false} FromJsonToJson(v: Value)
    requires Serializable(v)
    ensures FromJson(ToJson(v)) == v
  {
    match v
    case VList(xs) =>
      var ys := FromJson(ToJson(v)).items;
      assert |ys| == |xs|;
      forall i | 0 <= i < |xs|
        ensures ys[i] == xs[i]
      {
        FromJsonToJson(xs[i]);
      }
    case VDict(m) =>
      var n := FromJson(ToJson(v)).entries;
      assert n.Keys == m.Keys;
      forall k | k in m
        ensures n[k] == m[k]
      {
        FromJsonToJson(m[k]);
      }
    case _ =>
  }

  /** `json.loads(json.dumps(v)) == v` for every value `json.dumps` accepts. */
  lemma LoadsDumps(v: Value)
    requires Serializable(v)
    ensures Dumps(v).Ok? && Loads(Dumps(v).value) == Ok(v)
  {
    FromJsonToJson(v);
  }

  /** `key` occurs in `s` as a contiguous substring. */
  predicate IsSubstring(key: string, s: string)
    decreases |s|
  {
    key <= s || (|s| > 0 && IsSubstring(key, s[1..]))
  }

  /** `key` occurs in `s` starting at index `i`. */
  ghost predicate OccursAt(key: string, s: string, i: int) {
    0 <= i <= |s| - |key| && s[i..i + |key|] == key
  }

  /** `key` occurs in `s` starting at some index. */
  ghost predicate OccursIn(key: string, s: string) {
    exists i :: OccursAt(key, s, i)
  }

  /** The recursive substring test agrees with occurrence at an index. */
  lemma {:induction false} SubstringOccurs(key: string, s: string)
    ensures IsSubstring(key, s) <==> OccursIn(key, s)
    decreases |s|
  {
    if key <= s {
      assert OccursAt(key, s, 0);
    } else if |s| == 0 {
    } else {
      SubstringOccurs(key, s[1..]);
      if OccursIn(key, s[1..]) {
        var i :| OccursAt(key, s[1..], i);
        assert s[1..][i..i + |key|] == s[i + 1..i + 1 + |key|];
        assert OccursAt(key, s, i + 1);
      }
      if OccursIn(key, s) {
        var i :| OccursAt(key, s, i);
        if i != 0 {
          assert s[1..][i - 1..i - 1 + |key|] == s[i..i + |key|];
          assert OccursAt(key, s[1..], i - 1);
        }
      }
    }
  }

  /** Python's `key in container` for a string `key`: a key test on a dict, an
      element test on a list, a substring test on a string, and a `TypeError`
      on anything that is not a container. */
  function Contains(container: Value, key: string): (r: Result<bool>)
    ensures r.Raise? <==> !(container.VDict? || container.VList? || container.VStr?)
    ensures r.Raise? ==> r.exc == TypeError
    ensures container.VDict? ==> r == Ok(key in container.entries)
    ensures container.VList? ==> r == Ok(VStr(key) in container.items)
    ensures container.VStr? ==> r.Ok? && (r.value <==> OccursIn(key, container.s))
  {
    match container
    case VDict(m) => Ok(key in m)
    case VList(xs) => Ok(VStr(key) in xs)
    case VStr(s) => SubstringOccurs(key, s); Ok(IsSubstring(key, s))
    case _ => Raise(TypeError)
  }

  /** Python's `container[key]` for a string `key`: only a dict can be indexed
      by a string; a missing key raises `KeyError`. */
  function Index(container: Value, key: string): (r: Result<Value>)
    ensures r.Ok? <==> container.VDict? && key in container.entries
    ensures r.Ok? ==> r.value == container.entries[key]
    ensures r.Raise? && container.VDict? ==> r.exc == KeyError
    ensures !container.VDict? ==> r == Raise(TypeError)
  {
    match container
    case VDict(m) => if key in m then Ok(m[key]) else Raise(KeyError)
    case _ => Raise(TypeError)
  }

  /** How a value behaves as the key of a lookup in a dict whose keys are
      integers: the integer it equals (`True == 1`, `False == 0`), none for a
      hashable value equal to no integer, and a `TypeError` for an unhashable
      list or dict. */
  function IntKeyOf(v: Value): (r: Result<Option<int>>)
    ensures r.Raise? <==> v.VList? || v.VDict?
    ensures r.Raise? ==> r.exc == TypeError
    ensures v.VInt? ==> r == Ok(Some(v.i))
    // `True` finds entry 1 and `False` entry 0.
    ensures v == VBool(true) ==> r == Ok(Some(1))
    ensures v == VBool(false) ==> r == Ok(Some(0))
    ensures v.VNone? || v.VStr? || v.VObject? ==> r == Ok(None)
    ensures r.Ok? && r.value.Some? ==> v.VInt? || v.VBool?
  {
    match v
    case VInt(i) => Ok(Some(i))
    case VBool(b) => Ok(Some(if b then 1 else 0))
    case VList(_) => Raise(TypeError)
    case VDict(_) => Raise(TypeError)
    case _ => Ok(None)
  }
}

=== FILE: state.dfy ===
/**
  A value holder built on `Event`: a change of value notifies the observers,
  setting the current value again does not, and a new subscriber first
  receives the current value. Python's `None` is `None` here; any other value
  is `Some(v)`, compared with Dafny equality.
 */
module States {
  import opened PyJson
  import opened Events

  datatype State<O, V> = State(event: Event<O>, value: Option<V>)

  /** The outcome of `set`: the new state, and whether observers are notified. */
  datatype Update<O, V> = Update(state: State<O, V>, notifies: bool)

  /** The state `State(initial_value)` builds: no observers, holding the
      initial value, which is `None` unless given. */
  function NewState<O, V>(initial: Option<V> := None): (s: State<O, V>)
    ensures s.event.observers == {}
    ensures Get(s) == initial
  {
    State(NewEvent(), initial)
  }

  /** `get`. */
  function Get<O, V>(s: State<O, V>): Option<V> {
    s.value
  }

  /** `set`: a value equal to the current one changes nothing; any other value
      is stored and announced. */
  function Set<O, V(==)>(s: State<O, V>, v: Option<V>): (r: Update<O, V>)
    ensures Get(r.state) == v
    ensures r.state.event == s.event
    ensures r.notifies <==> Get(s) != v
  {
    if s.value == v then Update(s, false) else Update(s.(value := v), true)
  }

  /** `set` followed by the `notify` it triggers: every observer gets the new
      value once, or nobody is called when the value is unchanged. */
  method SetAndNotify<O, V(==)>(s: State<O, V>, v: Option<V>) returns (s': State<O, V>, calls: seq<Call<O, Option<V>>>)
    ensures Get(s') == v && s'.event == s.event
    ensures Get(s) == v ==> calls == []
    ensures Get(s) != v ==> |calls| == |s.event.observers|
    ensures forall i | 0 <= i < |calls| :: calls[i].observer in s.event.observers && calls[i].data == v
    ensures Get(s) != v ==> forall o | o in s.event.observers :: exists i | 0 <= i < |calls| :: calls[i].observer == o
    ensures forall i, j | 0 <= i < j < |calls| :: calls[i].observer != calls[j].observer
  {
    var update := Set(s, v);
    s' := update.state;
    if update.notifies {
      calls := Notify(s'.event, Get(s'));
    } else {
      calls := [];
    }
  }

  /** `subscribe`: the callback is first called with the current value when
      that value is not `None`, then added to the observers. */
  function SubscribeState<O, V>(s: State<O, V>, callback: O): (r: (State<O, V>, seq<Call<O, Option<V>>>))
    ensures Get(r.0) == Get(s)
    ensures callback in r.0.event.observers
    ensures r.0.event.observers - {callback} == s.event.observers - {callback}
    ensures s.value.None? ==> r.1 == []
    ensures s.value.Some? ==> r.1 == [Call(callback, s.value)]
  {
    var replay := if s.value.Some? then [Call(callback, s.value)] else [];
    (State(Events.Subscribe(s.event, callback), s.value), replay)
  }

  /** Setting the same value twice in a row gives at most one notification
      round, and exactly one when the value was different before. */
  lemma RepeatedSetNotifiesOnce<O, V>(s: State<O, V>, v: Option<V>)
    ensures !Set(Set(s, v).state, v).notifies
    ensures Set(s, v).notifies <==> Get(s) != v
  {
  }

  /** A subscriber to a state that holds a value receives it at once, and then
      receives the next different value set. */
  lemma ReplayThenUpdates<O, V>(s: State<O, V>, callback: O, next: Option<V>)
    requires s.value.Some? && next != s.value
    ensures SubscribeState(s, callback).1 == [Call(callback, s.value)]
    ensures Set(SubscribeState(s, callback).0, next).notifies
    ensures callback in Set(SubscribeState(s, callback).0, next).state.event.observers
  {
  }
}

=== FILE: topics.dfy ===
/**
  Definitions the client and the server connectors share: the topic namespace,
  the callbacks connectors install on an adapter, and publish calls.
 */
module Topics {
  import opened PyJson

  /** The reserved topic command responses travel on. */
  const ResponseTopic := "command/response"

  function StateTopic(name: string): string { "state/" + name }

  function EventTopic(name: string): string { "event/" + name }

  function CommandTopic(name: string): string { "command/" + name }

  /** A callback a connector installs on its adapter: the client's response
      handler, the client's wrappers around a user callback for a state or an
      event, or the server's `process_command` closure for a named command. */
  datatype Route =
    | ResponseRoute
    | StateRoute(user: nat)
    | EventRoute(user: nat)
    | CommandRoute(name: string, handler: nat)

  /** One call of the adapter's `publish`. */
  datatype Publication = Publication(topic: string, message: Text)

  /** Topics built from the same prefix are equal only for equal names. */
  lemma PrefixInjective(prefix: string, a: string, b: string)
    requires prefix + a == prefix + b
    ensures a == b
  {
    assert a == (prefix + a)[|prefix|..];
    assert b == (prefix + b)[|prefix|..];
  }

  /** The namespaces are kept apart: a name determines its topic and a state,
      event or command topic never equals one of another kind. The only command
      topic that meets the reserved response topic is that of the command
      named `response`. */
  lemma TopicsDistinct(a: string, b: string)
    ensures StateTopic(a) == StateTopic(b) <==> a == b
    ensures EventTopic(a) == EventTopic(b) <==> a == b
    ensures CommandTopic(a) == CommandTopic(b) <==> a == b
    ensures StateTopic(a) != EventTopic(b)
    ensures StateTopic(a) != CommandTopic(b) && EventTopic(a) != CommandTopic(b)
    ensures StateTopic(a) != ResponseTopic && EventTopic(a) != ResponseTopic
    ensures CommandTopic(a) == ResponseTopic <==> a == "response"
  {
    if StateTopic(a) == StateTopic(b) { PrefixInjective("state/", a, b); }
    if EventTopic(a) == EventTopic(b) { PrefixInjective("event/", a, b); }
    if CommandTopic(a) == CommandTopic(b) { PrefixInjective("command/", a, b); }
    if CommandTopic(a) == ResponseTopic { PrefixInjective("command/", a, "response"); }
    assert StateTopic(a)[0] == 's' && EventTopic(b)[0] == 'e' && CommandTopic(b)[0] == 'c';
    assert EventTopic(a)[0] == 'e' && ResponseTopic[0] == 'c';
  }
}
